=== FILE: README.md ===
# Smart task manager: a Dafny model of its decision logic

This project models the parts of the smart-task-manager application that make decisions. The rest of the repository is request plumbing. Three pieces are modelled:

- **AI-analysis enrichment** (`backend/src/handlers/aiAnalysis.ts`). `analyzeTask` reads one task by its `task_id`. It refuses a missing key (400), an unknown task (404) and a task that already has an analysis (400). Otherwise it builds a prompt, asks the Gemini model for an analysis, cuts the JSON object out of the reply with `/\{[\s\S]*\}/`, parses it, and writes it back together with a new `modified_at`. Every thrown failure becomes a 500.
  The store is a `map<string, TaskRow>` keyed by `task_id`, held by the class `TaskTable`. `TaskTable.AnalyzeTask` is proved equal to the pure function `Analyze`, and the properties are proved about `Analyze`.
- **Task creation** (`backend/src/handlers/tasks.ts`). `createTask` checks and trims the title, builds the record for the insert, and maps the insert outcome to 201 or 500. `getTasks` returns a fixed acknowledgement.
- **Frontend task list** (`frontend/app/composables/useTasks.ts`). The class `TaskList` holds `tasks`, `globalLoading` and `globalError`. Its actions prepend on create, replace the first match on update, and filter on delete. The model also covers the derived views (by status, by priority, overdue), the API-to-task field mapping, and the partial-update payload.

External effects are inputs. These are the model endpoint (`string -> GeminiReply`, which depends on the prompt), `JSON.parse`, date rendering and parsing, the store's insert, read failures and write failures, the clock, and the outcome of each frontend API call (`ApiOutcome(data, error)`).

Files: `wrappers.dfy` (Option, Result), `strings.dfy` (`includes`, `trim`, number rendering), `task_types.dfy` (the task entity), `seqs.dfy` (`filter`), `ai_analysis.dfy`, `task_handlers.dfy`, `use_tasks.dfy`.

Some behaviour is narrower than the field names suggest:
- `createTask` validates only the title. Description and priority are never checked.
- `getTasks` returns a fixed acknowledgement, not the stored tasks.
- Nothing checks the ranges of the analysis fields.
- Priorities are the three of `frontend/app/types/Task.ts`.

## Model

| member | source | states |
|---|---|---|
| `AiAnalysis.Analyze` | backend/src/handlers/aiAnalysis.ts:8-135 | The status is one of 200/400/404/500. Every non-200 outcome leaves the store unchanged. A stored analysis is never replaced. The store stays keyed by `task_id`. On 200, the key was present and unanalysed, the update did not fail, the returned analysis is the model's parsed answer, and the only write is that record's payload and `modified_at`. |
| `AiAnalysis.TaskTable.AnalyzeTask` | backend/src/handlers/aiAnalysis.ts:8-135 | The step-by-step handler over the held map keeps the map keyed by `task_id`. Its response and new map are those of `Analyze`. The only row it changes is the one whose `task_id` is the request's id, which is the row `.eq('task_id', task_id)` selects. |
| `AiAnalysis.MissingPathParametersFails` | backend/src/handlers/aiAnalysis.ts:24 | A request without path parameters throws on destructuring. The result is the catch-all 500, and the store is unchanged. |
| `AiAnalysis.MissingTaskIdRejected` | backend/src/handlers/aiAnalysis.ts:27-36 | An absent or empty `task_id` gives 400 "task_id is required". The store is unchanged, and neither the store nor the model is consulted. |
| `AiAnalysis.UnknownTaskNotFound` | backend/src/handlers/aiAnalysis.ts:48-69 | A read error or an absent row gives 404 "Task not found" and leaves the store unchanged. The outcome does not depend on the model, the parser or the write. |
| `AiAnalysis.AlreadyAnalyzedRejected` | backend/src/handlers/aiAnalysis.ts:77-87 | A task that already has an analysis gives 400, echoes that analysis, and leaves the store unchanged. The outcome does not depend on the model. |
| `AiAnalysis.ModelHttpErrorFails` | backend/src/handlers/aiAnalysis.ts:196-200 | A non-ok model reply gives the catch-all 500 and no write. Its debug message is "Gemini API error: <status> - <text>", and the status can be read back from it. |
| `AiAnalysis.NoContentFails` | backend/src/handlers/aiAnalysis.ts:205-210 | A reply with no text, or empty text, in its first part fails with "No content in Gemini response" and no write. |
| `AiAnalysis.NoJsonSpanFails` | backend/src/handlers/aiAnalysis.ts:215-219 | Text in which no `{` is followed by a later `}` fails with "Could not parse AI analysis" and no write. |
| `AiAnalysis.ModelFailureFails` | backend/src/handlers/aiAnalysis.ts:91 | Any failure of the model step gives 500 with that error's message as `debug`, and nothing is written. |
| `AiAnalysis.RejectedCallFails` | backend/src/handlers/aiAnalysis.ts:171-202 | A model call whose `fetch` or `response.json()` throws gives 500 with the thrown message, and nothing is written. |
| `AiAnalysis.ParseFailureFails` | backend/src/handlers/aiAnalysis.ts:223 | A brace span that `JSON.parse` rejects gives 500 with the parser's message, and nothing is written. |
| `AiAnalysis.WriteFaultFails` | backend/src/handlers/aiAnalysis.ts:104-106 | A failed store update is thrown and caught (lines 126-133). The result is 500 with its message, and the store is unchanged. |
| `AiAnalysis.SuccessWritesOnlyTheTask` | backend/src/handlers/aiAnalysis.ts:96-117 | On success the response is 200 with the parsed brace span. Only the target record changes, and only in `ai_analysis` (set to that value) and `modified_at` (set to now). Every other record is untouched. |
| `AiAnalysis.WithAnalysis` | backend/src/handlers/aiAnalysis.ts:96-102 | The updated record has the new payload and time. Restoring those two fields gives back the old record. |
| `AiAnalysis.DescriptionText` | backend/src/handlers/aiAnalysis.ts:155 | The description when it is a non-empty string, otherwise "No description". Never empty. |
| `AiAnalysis.DueDateText` | backend/src/handlers/aiAnalysis.ts:156-157 | The rendered due date when there is one, otherwise "No due date". |
| `AiAnalysis.BuildPrompt` | backend/src/handlers/aiAnalysis.ts:152-167 | The prompt always contains the quoted title line and the priority label line. It contains the description, or the "No description" placeholder when the description is null or empty. It contains the rendered due date, or the "No due date" placeholder when the due date is null or empty. |
| `AiAnalysis.GeminiErrorMessage` | backend/src/handlers/aiAnalysis.ts:199 | The message starts with "Gemini API error: ", contains the decimal status, ends with the reply's error text, and is exactly as long as those parts plus " - ". |
| `AiAnalysis.GeminiErrorCarriesStatus` | backend/src/handlers/aiAnalysis.ts:199 | The thrown message contains the decimal status code, and parsing the message gives that status back. |
| `AiAnalysis.FirstIndexOf` | backend/src/handlers/aiAnalysis.ts:215 | Returns the index of the first occurrence of the character, or none if it does not occur. |
| `AiAnalysis.LastIndexOf` | backend/src/handlers/aiAnalysis.ts:215 | Returns the index of the last occurrence of the character, or none if it does not occur. |
| `AiAnalysis.ExtractJsonSpan` | backend/src/handlers/aiAnalysis.ts:215-219 | Succeeds exactly when some `{` has a later `}`. The result is the regular expression's match: the leftmost start, then the longest (greedy) end. It begins with `{` and ends with `}`. |
| `AiAnalysis.AnalyzeWithGemini` | backend/src/handlers/aiAnalysis.ts:149-227 | Succeeds exactly when the reply is non-empty text with a brace span that parses, and the value is then the parse of that span. A rejected call fails with its own message. A non-ok reply fails with the "Gemini API error" message. Missing text fails with "No content in Gemini response". Text without a span fails with "Could not parse AI analysis". |
| `TaskHandlers.RequestTitle` | backend/src/handlers/tasks.ts:11-12 | An absent or empty body has no title. The read fails exactly when the body does not parse or parses to `null`. A title found is the `title` field of the parsed object. |
| `TaskHandlers.InsertTitle` | backend/src/handlers/tasks.ts:14-62 | For a string title: the result is 400 with no insert exactly when it trims to nothing. Otherwise it inserts `{id: now, title: trim(title), completed: false}`. The result is 201 with the first returned row exactly when the insert succeeded, and "Database Error" otherwise. |
| `TaskHandlers.CreateTask` | backend/src/handlers/tasks.ts:9-78 | The status is 201, 400 or 500. The result is 400 ("Task title is required", nothing inserted) exactly when the body was read and the title is falsy or a string that trims to nothing. The inserted record has id = now, `completed` false, and a title that is the trimmed request title: not empty, with no whitespace at either end. The result is 201 exactly when the insert succeeded, with the first returned row as the body. An insert error gives "Database Error" / "Failed to save task". |
| `TaskHandlers.AbsentBodyRequiresTitle` | backend/src/handlers/tasks.ts:11-26 | A missing or empty body is read as `{}`, which gives 400 and no insert. |
| `TaskHandlers.BlankTitleRejected` | backend/src/handlers/tasks.ts:14-26 | A title of whitespace only gives 400 and no insert. |
| `TaskHandlers.TitleInsertedTrimmed` | backend/src/handlers/tasks.ts:28-32 | A title with a non-whitespace character is inserted as `{id: now, title: trim(title), completed: false}`. |
| `TaskHandlers.FalsyTitleRejected` | backend/src/handlers/tasks.ts:14-26 | A body whose `title` is missing, `null`, `0`, `false` or empty gives 400, and nothing is inserted. |
| `TaskHandlers.UnparsableBodyFails` | backend/src/handlers/tasks.ts:64-76 | A body that does not parse gives 500 "Internal Server Error" / "Failed to create task" and no insert. |
| `TaskHandlers.GetTasks` | backend/src/handlers/tasks.ts:80-92 | Always 200 with "Tasks retrieved successfully" and the current timestamp. |
| `Strings.Trim` | backend/src/handlers/tasks.ts:14 | The result is the input with the whitespace runs at both ends removed, and it neither starts nor ends with whitespace. It is empty exactly when the input is all whitespace. |
| `Strings.SkipWhitespace` | backend/src/handlers/tasks.ts:14 | Returns the first index at or after the start that is not whitespace, or the length. Everything skipped is whitespace. |
| `Strings.SkipWhitespaceBack` | backend/src/handlers/tasks.ts:14 | Returns where a range ends once its trailing whitespace is dropped. Everything dropped is whitespace, and the new last character is not. |
| `Strings.Includes` | frontend/app/composables/useTasks.ts:229 | The `includes` scan is true exactly when the pattern occurs at some position. |
| `Strings.SubstringOfTail` | frontend/app/composables/useTasks.ts:229 | When the pattern is not a prefix, it occurs in the string exactly when it occurs in the string's tail. This is the step the scan relies on. |
| `Strings.PrefixDigitsTail` | frontend/app/composables/useApi.ts:26 | A message made of a prefix, a digit run and a tail that does not start with a digit keeps all three recoverable: the prefix, the digits read right after it, and the tail at the end. |
| `Strings.DecimalString` | backend/src/handlers/aiAnalysis.ts:199 | The rendered status is a non-empty run of digits with no leading zero. |
| `Strings.DecimalRoundTrip` | backend/src/handlers/aiAnalysis.ts:199 | Reading the rendered digits gives back the number. |
| `Strings.LeadingDigitsOfConcat` | backend/src/handlers/aiAnalysis.ts:199 | The digits of the status, followed by " - ", are read back as exactly those digits. |
| `TaskTypes.PriorityLabelRoundTrip` | frontend/app/types/Task.ts:8 | Each priority's wire label reads back as that priority. |
| `TaskTypes.StatusLabelRoundTrip` | frontend/app/types/Task.ts:16 | Each status's wire label reads back as that status. |
| `UseTasks.TaskFromApi` | frontend/app/composables/useTasks.ts:40-59 | The field mapping: `task_id` becomes `taskId` and `modified_at` becomes `updatedAt`. A falsy description or due date becomes undefined. A missing `completed` becomes false. `ai_analysis` is carried over. |
| `UseTasks.TasksFromApi` | frontend/app/composables/useTasks.ts:77 | Maps the fetched rows one for one, with the same length and order. |
| `UseTasks.TaskList.constructor` | frontend/app/composables/useTasks.ts:8-10 | The list starts empty, not loading, and with no error. |
| `UseTasks.TasksByStatus` | frontend/app/composables/useTasks.ts:19-23 | Each of the todo, in-progress and completed groups holds exactly the tasks with that status. |
| `UseTasks.TasksByPriority` | frontend/app/composables/useTasks.ts:25-29 | Each of the high, medium and low groups holds exactly the tasks with that priority. |
| `UseTasks.WithStatus` | frontend/app/composables/useTasks.ts:19-23 | A task is in the group exactly when it is in the list with that status. |
| `UseTasks.WithStatusKeepsOrder` | frontend/app/composables/useTasks.ts:19-23 | A status group of a concatenation is the concatenation of the groups, so each group keeps the list order. |
| `UseTasks.WithPriorityKeepsOrder` | frontend/app/composables/useTasks.ts:25-29 | A priority group of a concatenation is the concatenation of the groups, so each group keeps the list order. |
| `UseTasks.WithPriority` | frontend/app/composables/useTasks.ts:25-29 | A task is in the group exactly when it is in the list with that priority. |
| `UseTasks.TasksByStatusPartition` | frontend/app/composables/useTasks.ts:19-23 | The todo, in-progress and completed groups together hold every task, each as often as it occurs in the list. |
| `UseTasks.TasksByPriorityPartition` | frontend/app/composables/useTasks.ts:25-29 | The high, medium and low groups together hold every task, each as often as it occurs in the list. |
| `UseTasks.OverdueTasks` | frontend/app/composables/useTasks.ts:31-37 | A task is overdue exactly when it has a due date before now and is not completed. |
| `UseTasks.OverdueTasksKeepOrder` | frontend/app/composables/useTasks.ts:31-37 | The overdue view of a concatenation is the concatenation of the views, so list order is kept. |
| `Seqs.FilterConcat` | frontend/app/composables/useTasks.ts:20 | A filter distributes over concatenation, which means it keeps the original order. |
| `Seqs.FilterMultiset` | frontend/app/composables/useTasks.ts:20 | A kept value occurs as often as in the input. A dropped value does not occur. |
| `Seqs.FilterKeepsAll` | frontend/app/composables/useTasks.ts:235 | A filter that drops nothing returns its input. |
| `Seqs.Filter` | frontend/app/composables/useTasks.ts:20 | The result holds exactly the input's elements that satisfy the predicate, and is no longer than the input. |
| `UseTasks.UpdatePayload` | frontend/app/composables/useTasks.ts:167-178 | The payload has a key exactly for each field of `updates` that is not undefined, and no other keys. `dueDate` is sent as null exactly when it was given as null. |
| `UseTasks.UpdatePayloadRoundTrip` | frontend/app/composables/useTasks.ts:167-178 | Reading the payload back gives the updates it was built from. |
| `UseTasks.StatusUpdatePayload` | frontend/app/composables/useTasks.ts:250-260 | The `markAs*` updates send a payload with only the status. |
| `UseTasks.FindIndexById` | frontend/app/composables/useTasks.ts:195 | Returns the first index with that id, or -1 exactly when no task has it. |
| `UseTasks.ReplaceFirstAtIndex` | frontend/app/composables/useTasks.ts:195-198 | Writing at the index found is the same as replacing the first task with that id. Length and every other element are unchanged. With no match, the list is unchanged. |
| `UseTasks.RemoveById` | frontend/app/composables/useTasks.ts:235 | The remaining tasks are exactly those with a different id. |
| `UseTasks.RemoveByIdKeepsOrder` | frontend/app/composables/useTasks.ts:235 | Removing an id from a concatenation is the concatenation of the removals, so the remaining tasks keep their order. |
| `UseTasks.RemoveAbsentId` | frontend/app/composables/useTasks.ts:235 | Removing an id that no task has leaves the list unchanged. |
| `UseTasks.HttpErrorText` | frontend/app/composables/useApi.ts:26 | The message is exactly "HTTP ", the decimal status code (read back as exactly those digits), ": " and the status text, with nothing in between, since the length is the sum of the parts. |
| `UseTasks.DeleteSucceeded` | frontend/app/composables/useTasks.ts:227-230 | A delete succeeds exactly when there is no error message, the message is empty, or "404" occurs in it. |
| `UseTasks.NotFoundDeleteSucceeds` | frontend/app/composables/useTasks.ts:226-232 | A delete that failed with the API's "HTTP 404: …" message counts as success. |
| `UseTasks.TaskList.BeginAction` | frontend/app/composables/useTasks.ts:63-64 | An action starts with loading set and the previous error cleared, and the list untouched. |
| `UseTasks.TaskList.FetchTasks` | frontend/app/composables/useTasks.ts:62-88 | On success with data, the list becomes the mapped rows. On an error, the list is kept and the error is recorded. Loading ends false. |
| `UseTasks.TaskList.CreateTask` | frontend/app/composables/useTasks.ts:90-122 | On success, the list becomes `[newTask] + old` and the new task is returned. On failure or with no data, the list is unchanged and nothing is returned. Loading ends false. |
| `UseTasks.TaskList.ViewTask` | frontend/app/composables/useTasks.ts:124-156 | Returns the mapped task and leaves the list unchanged. An error is recorded. |
| `UseTasks.TaskList.UpdateTask` | frontend/app/composables/useTasks.ts:158-213 | The outcome is that of the built payload. On success the first task with the id is replaced (see `ReplaceFirstAtIndex`), and the updated task is returned even when no task matched. On failure the list is unchanged and the error is recorded. |
| `UseTasks.TaskList.DeleteTask` | frontend/app/composables/useTasks.ts:215-247 | The delete succeeds unless the error is truthy and lacks "404". On success, every task with the id is removed and the rest keep their order. On failure, the list is unchanged and the error is recorded. |
| `UseTasks.TaskList.MarkAsCompleted` | frontend/app/composables/useTasks.ts:250-252 | Same effect as `updateTask` with only `status: 'completed'`. |
| `UseTasks.TaskList.MarkAsInProgress` | frontend/app/composables/useTasks.ts:254-256 | Same effect as `updateTask` with only `status: 'in-progress'`. |
| `UseTasks.TaskList.MarkAsTodo` | frontend/app/composables/useTasks.ts:258-260 | Same effect as `updateTask` with only `status: 'todo'`. |

## Left out

- Logging (`console.*`), the CORS and content-type headers, and the `fetch` request details to the model endpoint (URL, API-key header, `generationConfig`). They carry no decision logic.
- `JSON.parse` and `JSON.stringify` are inputs. The parse of the brace span is a function `string -> Result<Analysis>`, and the parse of the request body is a function `string -> Option<JsValue>`. Floating-point numbers and NaN are not modelled; JSON numbers are integers.
- An absent or empty request body is modelled as the empty object, without calling the parser on `'{}'`.
- `Analysis` holds the four required fields of `aiAnalysis` in `frontend/app/types/Task.ts` (lines 10-13). The optional `suggestedSchedule` is not modelled, and neither is any other key or non-integer value the model returns. No range is checked, because the code checks none.
- The data of each frontend API outcome is assumed to have the expected shape: a sequence of rows for `fetchTasks`, a row otherwise. In the code, `data.map(transformTaskFromAPI)` throws when the data is not an array, and `transformTaskFromAPI` throws on a `null` element. Either exception is recorded in `globalError`, a path the model does not reach. The repository's own `getTasks` answers `{message, timestamp}`, which would take that path.
- A stored `ai_analysis` is always an object in the model, so it is truthy whenever present. A falsy JSON value in that column is not modelled.
- Dates are not modelled. `new Date(...)`, `toDateString` and `toISOString` are the function parameters `toTime` and `toDateString`, and update payloads carry the timestamp. An invalid `Date` (NaN, or a `RangeError` from `toISOString`) is not modelled.
- The store client is not modelled. A read failure is an input (`readFault`, the `fetchError` branch with `details`). A key missing from the map with no read failure takes the `!task` branch. `.single()`'s own reporting of a missing row as an error is client behaviour.
- A write failure is an input (`writeFault`). It stands for the text of the 500's `debug` field.
- For a request with no `pathParameters`, the destructuring `TypeError` gives the catch-all 500. The engine's message text is not modelled (`debug` is `None`).
- The check-then-write race between two concurrent `analyzeTask` calls is not modelled. One sequential invocation is modelled.
- Priority and status in stored rows are assumed to be valid enumeration labels. `transformTaskFromAPI` copies whatever the server sends.
- `Task` has no `userId`. `transformTaskFromAPI` never sets it, and `createTask` reads `userId` from the body but never uses it.
- `frontend/app/composables/useApi.ts` and `useAIAnalysis.ts` are not part of this model. Only the shape of their outcome matters here, as `ApiOutcome(data, error)`, with the error text "HTTP <status>: <text>" (`HttpErrorText`). `useApi` keeps `data` between calls, so a stale value can reappear. That is left to the caller-supplied outcome.
- Vue reactivity is not modelled: `ref`, `computed`, `readonly`, and the aggregated `loading`/`error` computeds over the `useApi` instances. The interleaving of actions at their `await` points is not modelled either. Each action runs to completion.
- `backend/src/local-server.ts` and `frontend/nuxt.config.ts` are a development stub and build configuration, and are not part of this model.

=== FILE: ai_analysis.dfy ===
/**
 * The AI-analysis enrichment handler: read one task by its external key,
 * refuse when it is missing or already analysed, ask the language model for
 * an analysis, cut the JSON object out of the model's text, parse it and
 * write it back onto the task together with a fresh modification time.
 *
 * The store is a map from `task_id` to row. The model endpoint, the JSON
 * parser, the date rendering, the store's read and write failures and the
 * clock are inputs of one invocation (`Services`).
 */
module AiAnalysis {
  import opened Wrappers
  import opened Strings
  import opened TaskTypes

  // ---------------------------------------------------------------------
  // Prompt construction
  // ---------------------------------------------------------------------

  const PromptIntro := "Analyze this task for priority and time estimation:\n\n"

  const FormatRequest :=
    "\nProvide analysis in this JSON format:\n{\n  \"urgency\": <number 1-10>,\n  \"importance\": <number 1-10>,\n  \"estimatedMinutes\": <number>,\n  \"reasoning\": \"<brief explanation>\"\n}"

  const NoDescription := "No description"
  const NoDueDate := "No due date"

  /** `task.description || 'No description'`. */
  function DescriptionText(description: Option<string>): (r: string)
    ensures r != []
    ensures IsTruthyText(description) ==> r == description.value
    ensures !IsTruthyText(description) ==> r == NoDescription
  {
    if IsTruthyText(description) then description.value else NoDescription
  }

  /** `task.due_date ? new Date(task.due_date).toDateString() : 'No due date'`. */
  function DueDateText(dueDate: Option<string>, toDateString: string -> string): (r: string)
    ensures IsTruthyText(dueDate) ==> r == toDateString(dueDate.value)
    ensures !IsTruthyText(dueDate) ==> r == NoDueDate
  {
    if IsTruthyText(dueDate) then toDateString(dueDate.value) else NoDueDate
  }

  /** The prompt sent to the model for `task`. */
  function BuildPrompt(task: TaskRow, toDateString: string -> string): (prompt: string)
    ensures IsSubstring("Task: \"" + task.title + "\"\n", prompt)
    ensures IsTruthyText(task.description) ==> IsSubstring("Description: \"" + task.description.value + "\"\n", prompt)
    ensures !IsTruthyText(task.description) ==> IsSubstring("Description: \"" + NoDescription + "\"\n", prompt)
    ensures IsTruthyText(task.dueDate) ==> IsSubstring("Due Date: " + toDateString(task.dueDate.value) + "\n", prompt)
    ensures !IsTruthyText(task.dueDate) ==> IsSubstring("Due Date: " + NoDueDate + "\n", prompt)
    ensures IsSubstring("Current Priority: " + PriorityLabel(task.priority) + "\n", prompt)
  {
    var titleLine := "Task: \"" + task.title + "\"\n";
    var descriptionLine := "Description: \"" + DescriptionText(task.description) + "\"\n";
    var dueDateLine := "Due Date: " + DueDateText(task.dueDate, toDateString) + "\n";
    var priorityLine := "Current Priority: " + PriorityLabel(task.priority) + "\n";
    LinesEmbedded(PromptIntro, titleLine, descriptionLine, dueDateLine, priorityLine, FormatRequest);
    var prompt := PromptIntro + titleLine + descriptionLine + dueDateLine + priorityLine + FormatRequest;
    prompt
  }

  /** Each of four consecutive lines is a substring of the text they are part of. */
  lemma LinesEmbedded(intro: string, l1: string, l2: string, l3: string, l4: string, outro: string)
    ensures var text := intro + l1 + l2 + l3 + l4 + outro;
      IsSubstring(l1, text) && IsSubstring(l2, text) && IsSubstring(l3, text) && IsSubstring(l4, text)
  {
    var text := intro + l1 + l2 + l3 + l4 + outro;
    SubstringOfConcat(l1, intro, l2 + l3 + l4 + outro);
    assert text == intro + l1 + (l2 + l3 + l4 + outro);
    SubstringOfConcat(l2, intro + l1, l3 + l4 + outro);
    assert text == (intro + l1) + l2 + (l3 + l4 + outro);
    SubstringOfConcat(l3, intro + l1 + l2, l4 + outro);
    assert text == (intro + l1 + l2) + l3 + (l4 + outro);
    SubstringOfConcat(l4, intro + l1 + l2 + l3, outro);
  }

  // ---------------------------------------------------------------------
  // The model's reply
  // ---------------------------------------------------------------------

  /** What the `fetch` to the model endpoint comes back with. */
  datatype GeminiReply =
    | Rejected(message: string)                 // `fetch` or `response.json()` threw
    | HttpError(status: nat, errorText: string) // `!response.ok`, with `response.text()`
    | Generated(content: Option<string>)        // `candidates?.[0]?.content?.parts?.[0]?.text`

  const GeminiErrorPrefix := "Gemini API error: "

  /** The message of the error thrown for a non-ok reply. */
  function GeminiErrorMessage(status: nat, errorText: string): (r: string)
    ensures |r| > |GeminiErrorPrefix| && r[..|GeminiErrorPrefix|] == GeminiErrorPrefix
    ensures |r| >= |errorText| && r[|r| - |errorText|..] == errorText
    ensures IsSubstring(DecimalString(status), r)
    ensures |r| == |GeminiErrorPrefix| + |DecimalString(status)| + 3 + |errorText|
  {
    SubstringOfConcat(DecimalString(status), GeminiErrorPrefix, " - " + errorText);
    assert GeminiErrorPrefix + DecimalString(status) + (" - " + errorText)
        == GeminiErrorPrefix + DecimalString(status) + " - " + errorText;
    GeminiErrorPrefix + DecimalString(status) + " - " + errorText
  }

  /** Reads the status code back out of a model error message. */
  function GeminiErrorStatus(message: string): Option<nat>
  {
    if |message| >= |GeminiErrorPrefix| && message[..|GeminiErrorPrefix|] == GeminiErrorPrefix then
      var digits := LeadingDigits(message[|GeminiErrorPrefix|..]);
      if digits == [] then None else Some(DecimalValue(digits))
    else None
  }

  /** The error message of a non-ok reply carries its status code, recoverably. */
  lemma GeminiErrorCarriesStatus(status: nat, errorText: string)
    ensures GeminiErrorStatus(GeminiErrorMessage(status, errorText)) == Some(status)
    ensures IsSubstring(DecimalString(status), GeminiErrorMessage(status, errorText))
  {
    var digits := DecimalString(status);
    var message := GeminiErrorMessage(status, errorText);
    assert message[..|GeminiErrorPrefix|] == GeminiErrorPrefix;
    assert message[|GeminiErrorPrefix|..] == digits + (" - " + errorText);
    LeadingDigitsOfConcat(digits, " - " + errorText);
    DecimalRoundTrip(status);
    SubstringOfConcat(digits, GeminiErrorPrefix, " - " + errorText);
    assert message == GeminiErrorPrefix + digits + (" - " + errorText);
  }

  // ---------------------------------------------------------------------
  // Cutting the JSON object out of the model's text: /\{[\s\S]*\}/
  // ---------------------------------------------------------------------

  /** The index of the first `c` in `s`. */
  function FirstIndexOf(s: string, c: char): (r: Option<nat>)
    ensures r.Some? ==> r.value < |s| && s[r.value] == c && forall k :: 0 <= k < r.value ==> s[k] != c
    ensures r.None? ==> forall k :: 0 <= k < |s| ==> s[k] != c
    decreases |s|
  {
    if s == [] then None
    else if s[0] == c then Some(0)
    else match FirstIndexOf(s[1..], c)
      case None => None
      case Some(i) => Some(i + 1)
  }

  /** The index of the last `c` in `s`. */
  function LastIndexOf(s: string, c: char): (r: Option<nat>)
    ensures r.Some? ==> r.value < |s| && s[r.value] == c && forall k :: r.value < k < |s| ==> s[k] != c
    ensures r.None? ==> forall k :: 0 <= k < |s| ==> s[k] != c
    decreases |s|
  {
    if s == [] then None
    else if s[|s| - 1] == c then Some(|s| - 1)
    else LastIndexOf(s[..|s| - 1], c)
  }

  /** The regular expression `\{[\s\S]*\}` matches `s[i..j]`. */
  ghost predicate BraceMatch(s: string, i: int, j: int)
  {
    0 <= i && i + 2 <= j <= |s| && s[i] == '{' && s[j - 1] == '}'
  }

  /**
   * `s[i..j]` is the match JavaScript's `String.prototype.match` reports:
   * the leftmost start position, and from there the longest match, since
   * `[\s\S]*` is greedy.
   */
  ghost predicate LeftmostLongest(s: string, i: int, j: int)
  {
    && BraceMatch(s, i, j)
    && forall i', j' :: BraceMatch(s, i', j') ==> i <= i' && (i' == i ==> j' <= j)
  }

  /** `content.match(/\{[\s\S]*\}/)?.[0]`: from the first `{` to the last `}` after it. */
  function ExtractJsonSpan(content: string): (r: Option<string>)
    ensures r.Some? <==> exists i, j :: BraceMatch(content, i, j)
    ensures r.Some? ==> exists i, j :: LeftmostLongest(content, i, j) && r.value == content[i..j]
    ensures r.Some? ==> |r.value| >= 2 && r.value[0] == '{' && r.value[|r.value| - 1] == '}'
  {
    var open := FirstIndexOf(content, '{');
    var close := LastIndexOf(content, '}');
    if open.Some? && close.Some? && open.value < close.value then
      assert LeftmostLongest(content, open.value, close.value + 1);
      Some(content[open.value..close.value + 1])
    else
      None
  }

  /**
   * `analyzeWithGemini`: the reply to the prompt, its first text part, the
   * brace span of that text, and the parse of the span, each of which can
   * fail with the message the thrown error carries.
   */
  function AnalyzeWithGemini(task: TaskRow, toDateString: string -> string,
                             gemini: string -> GeminiReply, parse: string -> Result<Analysis>): (r: Result<Analysis>)
    ensures r.Success? <==>
      && gemini(BuildPrompt(task, toDateString)).Generated?
      && IsTruthyText(gemini(BuildPrompt(task, toDateString)).content)
      && ExtractJsonSpan(gemini(BuildPrompt(task, toDateString)).content.value).Some?
      && parse(ExtractJsonSpan(gemini(BuildPrompt(task, toDateString)).content.value).value).Success?
    ensures var reply := gemini(BuildPrompt(task, toDateString));
      && (reply.Rejected? ==> r == Failure(reply.message))
      && (reply.HttpError? ==> r == Failure(GeminiErrorMessage(reply.status, reply.errorText)))
      && (reply.Generated? && !IsTruthyText(reply.content) ==> r == Failure("No content in Gemini response"))
      && (reply.Generated? && IsTruthyText(reply.content) && ExtractJsonSpan(reply.content.value).None? ==>
            r == Failure("Could not parse AI analysis"))
      && (reply.Generated? && IsTruthyText(reply.content) && ExtractJsonSpan(reply.content.value).Some? ==>
            r == parse(ExtractJsonSpan(reply.content.value).value))
  {
    match gemini(BuildPrompt(task, toDateString))
    case Rejected(message) => Failure(message)
    case HttpError(status, errorText) => Failure(GeminiErrorMessage(status, errorText))
    case Generated(content) =>
      if !IsTruthyText(content) then Failure("No content in Gemini response")
      else match ExtractJsonSpan(content.value)
        case None => Failure("Could not parse AI analysis")
        case Some(json) => parse(json)
  }

  // ---------------------------------------------------------------------
  // The handler
  // ---------------------------------------------------------------------

  datatype PathParameters = PathParameters(taskId: Option<string>)

  /** The incoming request; `pathParameters` may be absent. */
  datatype Event = Event(pathParameters: Option<PathParameters>)

  /** The JSON bodies the handler returns. */
  datatype Body =
    | ErrorBody(error: string, details: Option<string>)
    | AlreadyAnalyzedBody(error: string, existing: Analysis)
    | AnalyzedBody(message: string, aiAnalysis: Analysis)
    | ServerErrorBody(error: string, debug: Option<string>)

  datatype Response = Response(statusCode: int, body: Body)

  /**
   * Everything outside the handler that one invocation consults: a failure
   * reported by the store's read, the date rendering, the model endpoint,
   * `JSON.parse`, a failure reported by the store's update, and the clock.
   */
  datatype Services = Services(
    readFault: Option<string>,
    toDateString: string -> string,
    gemini: string -> GeminiReply,
    parse: string -> Result<Analysis>,
    writeFault: Option<string>,
    now: string)

  /** The response and the store after one invocation. */
  datatype Outcome = Outcome(response: Response, rows: map<string, TaskRow>)

  const ServerErrorMessage := "Failed to analyze task. Please try again later."

  /** The catch-all 500 response; `debug` is `None` where the engine writes the message. */
  function ServerError(debug: Option<string>): Response
  {
    Response(500, ServerErrorBody(ServerErrorMessage, debug))
  }

  /** The analysis the model produces for `task`. */
  function ModelAnalysis(task: TaskRow, env: Services): Result<Analysis>
  {
    AnalyzeWithGemini(task, env.toDateString, env.gemini, env.parse)
  }

  /** The record after a successful analysis: only the payload and the modification time change. */
  function WithAnalysis(task: TaskRow, analysis: Analysis, now: string): (t: TaskRow)
    ensures t.aiAnalysis == Some(analysis) && t.modifiedAt == now
    ensures t.(aiAnalysis := task.aiAnalysis, modifiedAt := task.modifiedAt) == task
  {
    task.(aiAnalysis := Some(analysis), modifiedAt := now)
  }

  /** Every key is the `task_id` of its row. */
  ghost predicate KeyedByTaskId(rows: map<string, TaskRow>)
  {
    forall k :: k in rows ==> rows[k].taskId == k
  }

  /** `analyzeTask`, as a function of the store and the services. */
  function Analyze(rows: map<string, TaskRow>, event: Event, env: Services): (o: Outcome)
    ensures o.response.statusCode in {200, 400, 404, 500}
    ensures o.rows.Keys == rows.Keys
    ensures o.response.statusCode != 200 ==> o.rows == rows
    ensures forall k :: k in rows && rows[k].aiAnalysis.Some? ==> o.rows[k] == rows[k]
    ensures KeyedByTaskId(rows) ==> KeyedByTaskId(o.rows)
    ensures o.response.statusCode == 200 ==>
      && event.pathParameters.Some?
      && IsTruthyText(event.pathParameters.value.taskId)
      && var id := event.pathParameters.value.taskId.value;
      && env.readFault.None?
      && id in rows
      && rows[id].aiAnalysis.None?
      && env.writeFault.None?
      && o.response.body.AnalyzedBody?
      && ModelAnalysis(rows[id], env) == Success(o.response.body.aiAnalysis)
      && o.rows == rows[id := WithAnalysis(rows[id], o.response.body.aiAnalysis, env.now)]
  {
    if event.pathParameters.None? then
      Outcome(ServerError(None), rows)
    else
      var taskId := event.pathParameters.value.taskId;
      if !IsTruthyText(taskId) then
        Outcome(Response(400, ErrorBody("task_id is required", None)), rows)
      else
        var id := taskId.value;
        if env.readFault.Some? then
          Outcome(Response(404, ErrorBody("Task not found", env.readFault)), rows)
        else if id !in rows then
          Outcome(Response(404, ErrorBody("Task not found", None)), rows)
        else if rows[id].aiAnalysis.Some? then
          Outcome(Response(400, AlreadyAnalyzedBody("Task already has AI analysis", rows[id].aiAnalysis.value)), rows)
        else
          match ModelAnalysis(rows[id], env)
          case Failure(message) => Outcome(ServerError(Some(message)), rows)
          case Success(analysis) =>
            if env.writeFault.Some? then
              Outcome(ServerError(env.writeFault), rows)
            else
              Outcome(Response(200, AnalyzedBody("Task analyzed successfully", analysis)),
                      rows[id := WithAnalysis(rows[id], analysis, env.now)])
  }

  // ---------------------------------------------------------------------
  // Properties of the handler
  // ---------------------------------------------------------------------

  /** A missing or empty `task_id` is refused before the store or the model is consulted. */
  lemma MissingTaskIdRejected(rows: map<string, TaskRow>, event: Event, env: Services)
    requires event.pathParameters.Some? && !IsTruthyText(event.pathParameters.value.taskId)
    ensures Analyze(rows, event, env) == Outcome(Response(400, ErrorBody("task_id is required", None)), rows)
  {
  }

  /**
   * A failed read or an absent row gives 404 "Task not found" and leaves the
   * store alone; the outcome does not depend on the model or the write.
   */
  lemma UnknownTaskNotFound(rows: map<string, TaskRow>, event: Event, env: Services, env': Services)
    requires event.pathParameters.Some? && IsTruthyText(event.pathParameters.value.taskId)
    requires env.readFault.Some? || event.pathParameters.value.taskId.value !in rows
    requires env'.readFault == env.readFault
    ensures Analyze(rows, event, env).response.statusCode == 404
    ensures Analyze(rows, event, env).response.body.error == "Task not found"
    ensures Analyze(rows, event, env).rows == rows
    ensures Analyze(rows, event, env') == Analyze(rows, event, env)
  {
  }

  /**
   * A task that already carries an analysis gives 400 with that analysis in
   * the body; the store is unchanged and the model is not consulted.
   */
  lemma AlreadyAnalyzedRejected(rows: map<string, TaskRow>, event: Event, env: Services, env': Services)
    requires event.pathParameters.Some? && IsTruthyText(event.pathParameters.value.taskId)
    requires env.readFault.None?
    requires event.pathParameters.value.taskId.value in rows
    requires rows[event.pathParameters.value.taskId.value].aiAnalysis.Some?
    requires env'.readFault.None?
    ensures Analyze(rows, event, env) ==
      Outcome(Response(400, AlreadyAnalyzedBody("Task already has AI analysis",
                                                rows[event.pathParameters.value.taskId.value].aiAnalysis.value)), rows)
    ensures Analyze(rows, event, env') == Analyze(rows, event, env)
  {
  }

  /**
   * A non-ok model reply gives 500, the debug message carries the reply's
   * status code, and nothing is written.
   */
  lemma ModelHttpErrorFails(rows: map<string, TaskRow>, event: Event, env: Services, id: string)
    requires event.pathParameters.Some? && event.pathParameters.value.taskId == Some(id) && id != ""
    requires env.readFault.None? && id in rows && rows[id].aiAnalysis.None?
    requires env.gemini(BuildPrompt(rows[id], env.toDateString)).HttpError?
    ensures var reply := env.gemini(BuildPrompt(rows[id], env.toDateString));
      && Analyze(rows, event, env) == Outcome(ServerError(Some(GeminiErrorMessage(reply.status, reply.errorText))), rows)
      && GeminiErrorStatus(Analyze(rows, event, env).response.body.debug.value) == Some(reply.status)
  {
    var reply := env.gemini(BuildPrompt(rows[id], env.toDateString));
    GeminiErrorCarriesStatus(reply.status, reply.errorText);
  }

  /** A reply without a first text part fails with "No content in Gemini response"; nothing is written. */
  lemma NoContentFails(rows: map<string, TaskRow>, event: Event, env: Services, id: string)
    requires event.pathParameters.Some? && event.pathParameters.value.taskId == Some(id) && id != ""
    requires env.readFault.None? && id in rows && rows[id].aiAnalysis.None?
    requires env.gemini(BuildPrompt(rows[id], env.toDateString)).Generated?
    requires !IsTruthyText(env.gemini(BuildPrompt(rows[id], env.toDateString)).content)
    ensures Analyze(rows, event, env) == Outcome(ServerError(Some("No content in Gemini response")), rows)
  {
  }

  /** Text with no `{` followed later by a `}` fails with "Could not parse AI analysis"; nothing is written. */
  lemma NoJsonSpanFails(rows: map<string, TaskRow>, event: Event, env: Services, id: string, content: string)
    requires event.pathParameters.Some? && event.pathParameters.value.taskId == Some(id) && id != ""
    requires env.readFault.None? && id in rows && rows[id].aiAnalysis.None?
    requires env.gemini(BuildPrompt(rows[id], env.toDateString)) == Generated(Some(content)) && content != ""
    requires forall i, j :: 0 <= i < j < |content| ==> !(content[i] == '{' && content[j] == '}')
    ensures Analyze(rows, event, env) == Outcome(ServerError(Some("Could not parse AI analysis")), rows)
  {
  }

  /** A request without path parameters cannot be destructured: the catch-all 500, nothing written. */
  lemma MissingPathParametersFails(rows: map<string, TaskRow>, event: Event, env: Services)
    requires event.pathParameters.None?
    ensures Analyze(rows, event, env) == Outcome(ServerError(None), rows)
  {
  }

  /**
   * Whatever makes the model step throw (a rejected call, a non-ok reply, no
   * content, no brace span, a span that does not parse) gives 500 with that
   * error's message, and nothing is written.
   */
  lemma ModelFailureFails(rows: map<string, TaskRow>, event: Event, env: Services, id: string)
    requires event.pathParameters.Some? && event.pathParameters.value.taskId == Some(id) && id != ""
    requires env.readFault.None? && id in rows && rows[id].aiAnalysis.None?
    requires ModelAnalysis(rows[id], env).Failure?
    ensures Analyze(rows, event, env) == Outcome(ServerError(Some(ModelAnalysis(rows[id], env).message)), rows)
  {
  }

  /** A rejected call to the model (`fetch` or `response.json()` throws) gives 500 with its message. */
  lemma RejectedCallFails(rows: map<string, TaskRow>, event: Event, env: Services, id: string, message: string)
    requires event.pathParameters.Some? && event.pathParameters.value.taskId == Some(id) && id != ""
    requires env.readFault.None? && id in rows && rows[id].aiAnalysis.None?
    requires env.gemini(BuildPrompt(rows[id], env.toDateString)) == Rejected(message)
    ensures Analyze(rows, event, env) == Outcome(ServerError(Some(message)), rows)
  {
  }

  /** A brace span that `JSON.parse` rejects gives 500 with the parser's message; nothing is written. */
  lemma ParseFailureFails(rows: map<string, TaskRow>, event: Event, env: Services, id: string,
                          content: string, message: string)
    requires event.pathParameters.Some? && event.pathParameters.value.taskId == Some(id) && id != ""
    requires env.readFault.None? && id in rows && rows[id].aiAnalysis.None?
    requires env.gemini(BuildPrompt(rows[id], env.toDateString)) == Generated(Some(content)) && content != ""
    requires ExtractJsonSpan(content).Some? && env.parse(ExtractJsonSpan(content).value) == Failure(message)
    ensures Analyze(rows, event, env) == Outcome(ServerError(Some(message)), rows)
  {
  }

  /** A failed update of the store is thrown and caught: 500 with its message, and the store is as before. */
  lemma WriteFaultFails(rows: map<string, TaskRow>, event: Event, env: Services, id: string)
    requires event.pathParameters.Some? && event.pathParameters.value.taskId == Some(id) && id != ""
    requires env.readFault.None? && id in rows && rows[id].aiAnalysis.None?
    requires ModelAnalysis(rows[id], env).Success? && env.writeFault.Some?
    ensures Analyze(rows, event, env) == Outcome(ServerError(env.writeFault), rows)
  {
  }

  /**
   * On success the response is 200 with the parsed brace span, and the store
   * differs from before only in that task's payload and modification time.
   */
  lemma SuccessWritesOnlyTheTask(rows: map<string, TaskRow>, event: Event, env: Services, id: string, content: string)
    requires event.pathParameters.Some? && event.pathParameters.value.taskId == Some(id) && id != ""
    requires env.readFault.None? && env.writeFault.None? && id in rows && rows[id].aiAnalysis.None?
    requires env.gemini(BuildPrompt(rows[id], env.toDateString)) == Generated(Some(content)) && content != ""
    requires ExtractJsonSpan(content).Some? && env.parse(ExtractJsonSpan(content).value).Success?
    ensures var analysis := env.parse(ExtractJsonSpan(content).value).value;
      var o := Analyze(rows, event, env);
      && o.response == Response(200, AnalyzedBody("Task analyzed successfully", analysis))
      && o.rows[id].aiAnalysis == Some(analysis) && o.rows[id].modifiedAt == env.now
      && o.rows[id].(aiAnalysis := None, modifiedAt := rows[id].modifiedAt) == rows[id]
      && forall k :: k in rows && k != id ==> o.rows[k] == rows[k]
  {
  }

  // ---------------------------------------------------------------------
  // The store and the handler as a stateful operation
  // ---------------------------------------------------------------------

  /** The `tasks` table, keyed by `task_id`. */
  class TaskTable {
    var rows: map<string, TaskRow>

    ghost predicate Valid()
      reads this
    {
      KeyedByTaskId(rows)
    }

    constructor (initial: map<string, TaskRow>)
      requires KeyedByTaskId(initial)
      ensures Valid() && rows == initial
    {
      rows := initial;
    }

    /**
     * One invocation of `analyzeTask`: early returns for each refusal, then
     * at most one update of the store.
     */
    method AnalyzeTask(event: Event, env: Services) returns (response: Response)
      requires Valid()
      modifies this
      ensures Valid()
      ensures response == Analyze(old(rows), event, env).response
      ensures rows == Analyze(old(rows), event, env).rows
      ensures forall k :: k in old(rows) && rows[k] != old(rows)[k] ==>
        event.pathParameters.Some? && event.pathParameters.value.taskId == Some(k) && rows[k].taskId == k
    {
      if event.pathParameters.None? {
        return ServerError(None);
      }
      var taskId := event.pathParameters.value.taskId;
      if !IsTruthyText(taskId) {
        return Response(400, ErrorBody("task_id is required", None));
      }
      var id := taskId.value;
      if env.readFault.Some? {
        return Response(404, ErrorBody("Task not found", env.readFault));
      }
      if id !in rows {
        return Response(404, ErrorBody("Task not found", None));
      }
      var task := rows[id];
      if task.aiAnalysis.Some? {
        return Response(400, AlreadyAnalyzedBody("Task already has AI analysis", task.aiAnalysis.value));
      }
      var analysis := ModelAnalysis(task, env);
      if analysis.Failure? {
        return ServerError(Some(analysis.message));
      }
      if env.writeFault.Some? {
        return ServerError(env.writeFault);
      }
      rows := rows[id := WithAnalysis(task, analysis.value, env.now)];
      response := Response(200, AnalyzedBody("Task analyzed successfully", analysis.value));
    }
  }
}

=== FILE: seqs.dfy ===
/** `Array.prototype.filter` on sequences, with the facts the task views rely on. */
module Seqs {

  /** Keeps, in order, the elements for which `keep` holds. */
  function Filter<T(!new)>(s: seq<T>, keep: T -> bool): (r: seq<T>)
    ensures |r| <= |s|
    ensures forall x :: x in r <==> x in s && keep(x)
  {
    if s == [] then []
    else
      var rest := Filter(s[1..], keep);
      assert s == [s[0]] + s[1..];
      if keep(s[0]) then [s[0]] + rest else rest
  }

  /**
   * Filtering distributes over concatenation: together with the result on a
   * single element this pins the result down, order included.
   */
  lemma {:induction false} FilterConcat<T(!new)>(a: seq<T>, b: seq<T>, keep: T -> bool)
    ensures Filter(a + b, keep) == Filter(a, keep) + Filter(b, keep)
  {
    if a == [] {
      assert a + b == b;
    } else {
      var ab := a + b;
      assert ab[0] == a[0] && ab[1..] == a[1..] + b;
      FilterConcat(a[1..], b, keep);
      assert Filter(ab, keep) == (if keep(a[0]) then [a[0]] else []) + Filter(ab[1..], keep);
    }
  }

  /** Each kept value occurs as often as in the input, each dropped value not at all. */
  lemma {:induction false} FilterMultiset<T(!new)>(s: seq<T>, keep: T -> bool)
    ensures forall x :: multiset(Filter(s, keep))[x] == if keep(x) then multiset(s)[x] else 0
  {
    if s != [] {
      FilterMultiset(s[1..], keep);
      assert s == [s[0]] + s[1..];
    }
  }

  /** When nothing is dropped, the filter is the identity. */
  lemma {:induction false} FilterKeepsAll<T(!new)>(s: seq<T>, keep: T -> bool)
    requires forall x :: x in s ==> keep(x)
    ensures Filter(s, keep) == s
  {
    if s != [] {
      FilterKeepsAll(s[1..], keep);
    }
  }
}

=== FILE: strings.dfy ===
/**
 * The handful of JavaScript string operations the handlers and the composable
 * rely on: `includes`, `trim`, and rendering a number in a template literal.
 */
module Strings {

  /** `p` occurs in `s` starting at index `i`. */
  predicate OccursAt(p: string, s: string, i: int)
  {
    0 <= i && i + |p| <= |s| && s[i..i + |p|] == p
  }

  /** `p` is a substring of `s` (the reference definition). */
  ghost predicate IsSubstring(p: string, s: string)
  {
    exists i :: OccursAt(p, s, i)
  }

  /**
   * When `p` is not a prefix of a non-empty `s`, an occurrence of `p` in `s`
   * is an occurrence in `s[1..]`, one position earlier, and back.
   */
  lemma SubstringOfTail(p: string, s: string)
    requires s != [] && !(|p| <= |s| && s[..|p|] == p)
    ensures IsSubstring(p, s) <==> IsSubstring(p, s[1..])
  {
    if IsSubstring(p, s[1..]) {
      var i :| OccursAt(p, s[1..], i);
      assert s[i + 1..i + 1 + |p|] == s[1..][i..i + |p|];
      assert OccursAt(p, s, i + 1);
    }
    if IsSubstring(p, s) {
      var i :| OccursAt(p, s, i);
      assert i != 0;
      assert s[1..][i - 1..i - 1 + |p|] == s[i..i + |p|];
      assert OccursAt(p, s[1..], i - 1);
    }
  }

  /** JavaScript's `s.includes(p)`, computed by trying every start position. */
  function Includes(s: string, p: string): (r: bool)
    ensures r <==> IsSubstring(p, s)
    decreases |s|
  {
    if |p| <= |s| && s[..|p|] == p then
      assert OccursAt(p, s, 0);
      true
    else if s == [] then false
    else
      SubstringOfTail(p, s);
      Includes(s[1..], p)
  }

  /** Whatever is concatenated around `x` still contains `x`. */
  lemma SubstringOfConcat(x: string, a: string, b: string)
    ensures IsSubstring(x, a + x + b)
  {
    assert (a + x + b)[|a|..|a| + |x|] == x;
    assert OccursAt(x, a + x + b, |a|);
  }

  /**
   * The characters JavaScript's `String.prototype.trim` removes: the
   * WhiteSpace and LineTerminator productions of ECMAScript (section 12.2 and
   * 12.3 of ECMA-262), including every space separator of Unicode category Zs.
   */
  predicate IsWhitespace(c: char)
  {
    || c == '\t' || c == '\n' || c == '\U{000B}' || c == '\U{000C}' || c == '\r'
    || c == ' ' || c == '\U{00A0}' || c == '\U{1680}'
    || ('\U{2000}' <= c <= '\U{200A}')
    || c == '\U{2028}' || c == '\U{2029}' || c == '\U{202F}' || c == '\U{205F}'
    || c == '\U{3000}' || c == '\U{FEFF}'
  }

  /** The first index at or after `i` whose character is not whitespace, or `|s|`. */
  function SkipWhitespace(s: string, i: nat): (a: nat)
    requires i <= |s|
    ensures i <= a <= |s|
    ensures forall k :: i <= k < a ==> IsWhitespace(s[k])
    ensures a < |s| ==> !IsWhitespace(s[a])
    decreases |s| - i
  {
    if i < |s| && IsWhitespace(s[i]) then SkipWhitespace(s, i + 1) else i
  }

  /** The end of `s[lo..j]` once its trailing whitespace is dropped. */
  function SkipWhitespaceBack(s: string, lo: nat, j: nat): (b: nat)
    requires lo <= j <= |s|
    ensures lo <= b <= j
    ensures forall k :: b <= k < j ==> IsWhitespace(s[k])
    ensures b > lo ==> !IsWhitespace(s[b - 1])
    decreases j
  {
    if j > lo && IsWhitespace(s[j - 1]) then SkipWhitespaceBack(s, lo, j - 1) else j
  }

  /** `r` is `s` with exactly the whitespace run before index `i` and after `r` cut off. */
  predicate TrimmedAt(s: string, r: string, i: int)
  {
    && 0 <= i && i + |r| <= |s| && r == s[i..i + |r|]
    && (forall k :: 0 <= k < i ==> IsWhitespace(s[k]))
    && (forall k :: i + |r| <= k < |s| ==> IsWhitespace(s[k]))
  }

  /** JavaScript's `s.trim()`. */
  function Trim(s: string): (r: string)
    ensures exists i :: TrimmedAt(s, r, i)
    ensures r == [] || (!IsWhitespace(r[0]) && !IsWhitespace(r[|r| - 1]))
    ensures r == [] <==> forall k :: 0 <= k < |s| ==> IsWhitespace(s[k])
  {
    var a := SkipWhitespace(s, 0);
    var b := SkipWhitespaceBack(s, a, |s|);
    assert TrimmedAt(s, s[a..b], a);
    assert b > a ==> s[a..b][0] == s[a] && s[a..b][b - a - 1] == s[b - 1];
    assert a < |s| ==> a < b;
    s[a..b]
  }

  predicate IsDigit(c: char)
  {
    '0' <= c <= '9'
  }

  predicate AllDigits(s: string)
  {
    forall k :: 0 <= k < |s| ==> IsDigit(s[k])
  }

  function DigitChar(d: int): (c: char)
    requires 0 <= d < 10
    ensures IsDigit(c)
  {
    ('0' as int + d) as char
  }

  function DigitValue(c: char): int
    requires IsDigit(c)
  {
    c as int - '0' as int
  }

  /** A non-negative number as a template literal `${n}` renders it: decimal, no leading zero. */
  function DecimalString(n: nat): (r: string)
    ensures |r| >= 1 && AllDigits(r)
    ensures r[0] == '0' ==> n == 0
  {
    if n < 10 then [DigitChar(n)] else DecimalString(n / 10) + [DigitChar(n % 10)]
  }

  /** The number a string of decimal digits denotes. */
  function DecimalValue(s: string): nat
    requires AllDigits(s)
  {
    if s == [] then 0 else DecimalValue(s[..|s| - 1]) * 10 + DigitValue(s[|s| - 1])
  }

  /** The rendered digits denote the number again, so the rendering loses nothing. */
  lemma {:induction false} DecimalRoundTrip(n: nat)
    ensures DecimalValue(DecimalString(n)) == n
  {
    if n >= 10 {
      DecimalRoundTrip(n / 10);
      var s := DecimalString(n);
      assert s[..|s| - 1] == DecimalString(n / 10);
    }
  }

  /** The run of decimal digits at the start of `s`. */
  function LeadingDigits(s: string): (r: string)
    ensures AllDigits(r) && |r| <= |s| && r == s[..|r|]
    decreases |s|
  {
    if s != [] && IsDigit(s[0]) then [s[0]] + LeadingDigits(s[1..]) else []
  }

  /** Digits followed by a non-digit (or nothing) are read back as exactly those digits. */
  lemma {:induction false} LeadingDigitsOfConcat(d: string, rest: string)
    requires AllDigits(d)
    requires rest == [] || !IsDigit(rest[0])
    ensures LeadingDigits(d + rest) == d
  {
    if d != [] {
      assert (d + rest)[1..] == d[1..] + rest;
      LeadingDigitsOfConcat(d[1..], rest);
    } else {
      assert d + rest == rest;
    }
  }

  /**
   * A message made of a fixed prefix, a run of digits and a tail that does
   * not start with a digit keeps all three recoverable.
   */
  lemma {:induction false} PrefixDigitsTail(prefix: string, digits: string, tail: string)
    requires AllDigits(digits)
    requires tail == [] || !IsDigit(tail[0])
    ensures var r := prefix + digits + tail;
      && r[..|prefix|] == prefix
      && LeadingDigits(r[|prefix|..]) == digits
      && r[|r| - |tail|..] == tail
      && IsSubstring(digits, r)
  {
    var r := prefix + digits + tail;
    assert r[|prefix|..] == digits + tail;
    LeadingDigitsOfConcat(digits, tail);
    SubstringOfConcat(digits, prefix, tail);
  }
}

=== FILE: task_handlers.dfy ===
/**
 * The task-creation and listing handlers: validate the title of the request
 * body, build the record to insert, and map the store's answer to a status
 * code. The store's insert and `JSON.parse` are inputs.
 */
module TaskHandlers {
  import opened Wrappers
  import opened Strings
  import opened TaskTypes

  /** A value `JSON.parse` can return (numbers restricted to integers). */
  datatype JsValue =
    | JsNull
    | JsBool(b: bool)
    | JsNumber(n: int)
    | JsString(s: string)
    | JsArray(elements: seq<JsValue>)
    | JsObject(fields: map<string, JsValue>)

  /** JavaScript truthiness; `None` is `undefined`. */
  predicate Truthy(v: Option<JsValue>)
  {
    match v
    case None => false
    case Some(JsNull) => false
    case Some(JsBool(b)) => b
    case Some(JsNumber(n)) => n != 0
    case Some(JsString(s)) => s != ""
    case Some(JsArray(_)) => true
    case Some(JsObject(_)) => true
  }

  /** The incoming request; `body` may be absent. */
  datatype Event = Event(body: Option<string>)

  /** The record handed to the insert. */
  datatype NewTask = NewTask(id: int, title: string, completed: bool)

  /** What the store's `insert(...).select()` answers. */
  datatype InsertOutcome = InsertFailed(message: string) | Inserted(rows: seq<TaskRow>)

  /** The JSON bodies the handlers return; `NoBody` is `JSON.stringify(undefined)`. */
  datatype Body =
    | ErrorBody(error: string, message: string)
    | RowBody(row: TaskRow)
    | NoBody
    | InfoBody(message: string, timestamp: string)

  datatype Response = Response(statusCode: int, body: Body)

  /** The response, and the record the handler handed to the insert if it got that far. */
  datatype CreateOutcome = CreateOutcome(response: Response, inserted: Option<NewTask>)

  const TitleRequired := Response(400, ErrorBody("Validation Error", "Task title is required"))
  const SaveFailed := Response(500, ErrorBody("Database Error", "Failed to save task"))
  const CreateCrashed := Response(500, ErrorBody("Internal Server Error", "Failed to create task"))

  /**
   * `const { userId, title } = JSON.parse(event.body || '{}')`: the `title`
   * property of the parsed body, or a failure where the line throws (the
   * body does not parse, or it is `null` and cannot be destructured).
   * An absent or empty body stands for `{}`.
   */
  function RequestTitle(event: Event, parse: string -> Option<JsValue>): (r: Result<Option<JsValue>>)
    ensures !IsTruthyText(event.body) ==> r == Success(None)
    ensures r.Failure? <==> IsTruthyText(event.body) && parse(event.body.value) in {None, Some(JsNull)}
    ensures r.Success? && r.value.Some? ==>
      && IsTruthyText(event.body) && parse(event.body.value).Some? && parse(event.body.value).value.JsObject?
      && var fields := parse(event.body.value).value.fields;
      && "title" in fields && fields["title"] == r.value.value
    ensures IsTruthyText(event.body) && parse(event.body.value).Some? && parse(event.body.value).value.JsObject? ==>
      var fields := parse(event.body.value).value.fields;
      r == Success(if "title" in fields then Some(fields["title"]) else None)
    ensures IsTruthyText(event.body) && parse(event.body.value).Some?
            && !parse(event.body.value).value.JsObject? && !parse(event.body.value).value.JsNull? ==>
      r == Success(None)
  {
    var parsed := if IsTruthyText(event.body) then parse(event.body.value) else Some(JsObject(map[]));
    match parsed
    case None => Failure("body is not JSON")
    case Some(JsNull) => Failure("cannot destructure null")
    case Some(JsObject(fields)) => Success(if "title" in fields then Some(fields["title"]) else None)
    case Some(_) => Success(None)
  }

  /**
   * The part of `createTask` after the title is known to be a string: trim
   * it, refuse it if nothing is left, otherwise insert the new open task and
   * report what the store answered.
   */
  function InsertTitle(raw: string, now: int, insert: NewTask -> InsertOutcome): (o: CreateOutcome)
    ensures o.response.statusCode in {201, 400, 500}
    ensures o.response.statusCode == 400 <==> Trim(raw) == []
    ensures o.response.statusCode == 400 ==> o == CreateOutcome(TitleRequired, None)
    ensures o.inserted.Some? <==> Trim(raw) != []
    ensures o.inserted.Some? ==> o.inserted.value == NewTask(now, Trim(raw), false)
    ensures o.response.statusCode == 201 <==> o.inserted.Some? && insert(o.inserted.value).Inserted?
    ensures o.inserted.Some? && insert(o.inserted.value).InsertFailed? ==> o.response == SaveFailed
    ensures o.response.statusCode == 201 ==>
      var rows := insert(o.inserted.value).rows;
      o.response.body == if |rows| > 0 then RowBody(rows[0]) else NoBody
  {
    var trimmed := Trim(raw);
    if trimmed == [] then CreateOutcome(TitleRequired, None)
    else
      var record := NewTask(now, trimmed, false);
      match insert(record)
      case InsertFailed(_) => CreateOutcome(SaveFailed, Some(record))
      case Inserted(rows) =>
        CreateOutcome(Response(201, if |rows| > 0 then RowBody(rows[0]) else NoBody), Some(record))
  }

  /** `createTask`. */
  function CreateTask(event: Event, parse: string -> Option<JsValue>, now: int,
                      insert: NewTask -> InsertOutcome): (o: CreateOutcome)
    ensures o.response.statusCode in {201, 400, 500}
    ensures o.response.statusCode == 400 ==> o.response == TitleRequired && o.inserted.None?
    ensures var title := RequestTitle(event, parse);
      title.Failure? || (Truthy(title.value) && !title.value.value.JsString?) ==> o == CreateOutcome(CreateCrashed, None)
    ensures var title := RequestTitle(event, parse);
      o.response.statusCode == 400 <==>
        && title.Success?
        && (!Truthy(title.value) || (title.value.value.JsString? && Trim(title.value.value.s) == []))
    ensures o.inserted.Some? ==>
      && o.inserted.value.id == now
      && !o.inserted.value.completed
      && o.inserted.value.title != []
      && !IsWhitespace(o.inserted.value.title[0])
      && !IsWhitespace(o.inserted.value.title[|o.inserted.value.title| - 1])
      && var title := RequestTitle(event, parse);
      && title.Success? && title.value.Some? && title.value.value.JsString?
      && o.inserted.value.title == Trim(title.value.value.s)
    ensures o.response.statusCode == 201 <==> o.inserted.Some? && insert(o.inserted.value).Inserted?
    ensures o.inserted.Some? && insert(o.inserted.value).InsertFailed? ==> o.response == SaveFailed
    ensures o.response.statusCode == 201 ==>
      var rows := insert(o.inserted.value).rows;
      o.response.body == if |rows| > 0 then RowBody(rows[0]) else NoBody
  {
    match RequestTitle(event, parse)
    case Failure(_) => CreateOutcome(CreateCrashed, None)
    case Success(title) =>
      if !Truthy(title) then CreateOutcome(TitleRequired, None)
      else if !title.value.JsString? then
        // `title.trim` is not a function: the TypeError is caught
        CreateOutcome(CreateCrashed, None)
      else InsertTitle(title.value.s, now, insert)
  }

  /** Without a body, or with an empty one, the title is missing: 400 and no insert. */
  lemma AbsentBodyRequiresTitle(event: Event, parse: string -> Option<JsValue>, now: int, insert: NewTask -> InsertOutcome)
    requires !IsTruthyText(event.body)
    ensures CreateTask(event, parse, now, insert) == CreateOutcome(TitleRequired, None)
  {
  }

  /** A title that is empty after trimming is refused with 400 and nothing is inserted. */
  lemma BlankTitleRejected(event: Event, parse: string -> Option<JsValue>, now: int,
                           insert: NewTask -> InsertOutcome, raw: string)
    requires RequestTitle(event, parse) == Success(Some(JsString(raw)))
    requires forall k :: 0 <= k < |raw| ==> IsWhitespace(raw[k])
    ensures CreateTask(event, parse, now, insert) == CreateOutcome(TitleRequired, None)
  {
  }

  /** A body that does not parse becomes the catch-all 500, with nothing inserted. */
  lemma UnparsableBodyFails(event: Event, parse: string -> Option<JsValue>, now: int, insert: NewTask -> InsertOutcome)
    requires IsTruthyText(event.body) && parse(event.body.value).None?
    ensures CreateTask(event, parse, now, insert) == CreateOutcome(CreateCrashed, None)
  {
  }

  /** A body whose `title` is missing, `null`, `0`, `false` or empty is refused with 400; nothing is inserted. */
  lemma FalsyTitleRejected(event: Event, parse: string -> Option<JsValue>, now: int, insert: NewTask -> InsertOutcome)
    requires RequestTitle(event, parse).Success? && !Truthy(RequestTitle(event, parse).value)
    ensures CreateTask(event, parse, now, insert) == CreateOutcome(TitleRequired, None)
  {
  }

  /** A title with something besides whitespace is inserted trimmed, as an open task. */
  lemma TitleInsertedTrimmed(event: Event, parse: string -> Option<JsValue>, now: int,
                             insert: NewTask -> InsertOutcome, raw: string, k: int)
    requires RequestTitle(event, parse) == Success(Some(JsString(raw)))
    requires 0 <= k < |raw| && !IsWhitespace(raw[k])
    ensures CreateTask(event, parse, now, insert).inserted == Some(NewTask(now, Trim(raw), false))
  {
  }

  /** `getTasks`: a fixed acknowledgement stamped with the current time. */
  function GetTasks(now: string): (r: Response)
    ensures r.statusCode == 200
    ensures r.body.InfoBody? && r.body.message == "Tasks retrieved successfully" && r.body.timestamp == now
  {
    Response(200, InfoBody("Tasks retrieved successfully", now))
  }
}

=== FILE: task_types.dfy ===
/**
 * The task entity shared by the backend handlers and the frontend: the
 * priority and status enumerations, the AI analysis payload, and the row of
 * the `tasks` table as the backend stores it and the frontend receives it.
 */
module TaskTypes {
  import opened Wrappers

  datatype Priority = Low | Medium | High

  datatype Status = Todo | InProgress | Completed

  /** The wire spelling of a priority. */
  function PriorityLabel(p: Priority): string
  {
    match p
    case Low => "low"
    case Medium => "medium"
    case High => "high"
  }

  function PriorityFromLabel(s: string): Option<Priority>
  {
    if s == "low" then Some(Low)
    else if s == "medium" then Some(Medium)
    else if s == "high" then Some(High)
    else None
  }

  /** The wire spelling of a status. */
  function StatusLabel(s: Status): string
  {
    match s
    case Todo => "todo"
    case InProgress => "in-progress"
    case Completed => "completed"
  }

  function StatusFromLabel(s: string): Option<Status>
  {
    if s == "todo" then Some(Todo)
    else if s == "in-progress" then Some(InProgress)
    else if s == "completed" then Some(Completed)
    else None
  }

  /** Every priority label reads back as the priority it spells. */
  lemma PriorityLabelRoundTrip(p: Priority)
    ensures PriorityFromLabel(PriorityLabel(p)) == Some(p)
  {
  }

  /** Every status label reads back as the status it spells. */
  lemma StatusLabelRoundTrip(s: Status)
    ensures StatusFromLabel(StatusLabel(s)) == Some(s)
  {
  }

  /** The object the language model is asked to produce and that is stored verbatim. */
  datatype Analysis = Analysis(urgency: int, importance: int, estimatedMinutes: int, reasoning: string)

  /**
   * A row of the `tasks` table, with the column names of the store
   * (`task_id`, `due_date`, `created_at`, `modified_at`, `ai_analysis`).
   * `None` stands for a null column; timestamps are the store's strings.
   */
  datatype TaskRow = TaskRow(
    id: int,
    taskId: string,
    title: string,
    description: Option<string>,
    priority: Priority,
    status: Status,
    completed: Option<bool>,
    dueDate: Option<string>,
    createdAt: string,
    modifiedAt: string,
    aiAnalysis: Option<Analysis>)

  /** JavaScript truthiness of an optional string: null, undefined and "" are falsy. */
  predicate IsTruthyText(s: Option<string>)
  {
    s.Some? && s.value != ""
  }
}

=== FILE: use_tasks.dfy ===
/**
 * The frontend's task-list state (`useTasks`): the list of tasks with a
 * loading flag and an error message, the derived views over the list, the
 * mapping from the API's rows to tasks, the partial-update payload, and the
 * actions that call the API and update the list.
 *
 * What an API call comes back with is an input (`ApiOutcome`): the data it
 * decoded, if any, and the error message it recorded, if any.
 */
module UseTasks {
  import opened Wrappers
  import opened Strings
  import opened TaskTypes
  import opened Seqs

  /** A task as the frontend holds it; dates are millisecond timestamps. */
  datatype Task = Task(
    id: int,
    taskId: string,
    title: string,
    description: Option<string>,
    priority: Priority,
    status: Status,
    completed: bool,
    dueDate: Option<int>,
    createdAt: int,
    updatedAt: int,
    aiAnalysis: Option<Analysis>)

  // ---------------------------------------------------------------------
  // From API rows to tasks
  // ---------------------------------------------------------------------

  /**
   * `transformTaskFromAPI`: renames the store's columns, turns falsy
   * optional fields into `undefined` and a missing `completed` into false.
   * `toTime` is `new Date(...)` read as a timestamp.
   */
  function TaskFromApi(api: TaskRow, toTime: string -> int): (t: Task)
    ensures t.id == api.id && t.taskId == api.taskId && t.title == api.title
    ensures t.priority == api.priority && t.status == api.status
    ensures t.description.Some? <==> IsTruthyText(api.description)
    ensures t.description.Some? ==> t.description == api.description
    ensures t.completed <==> api.completed == Some(true)
    ensures t.dueDate.Some? <==> IsTruthyText(api.dueDate)
    ensures t.dueDate.Some? ==> t.dueDate.value == toTime(api.dueDate.value)
    ensures t.createdAt == toTime(api.createdAt) && t.updatedAt == toTime(api.modifiedAt)
    ensures t.aiAnalysis == api.aiAnalysis
  {
    Task(
      id := api.id,
      taskId := api.taskId,
      title := api.title,
      description := if IsTruthyText(api.description) then api.description else None,
      priority := api.priority,
      status := api.status,
      completed := if api.completed.Some? then api.completed.value else false,
      dueDate := if IsTruthyText(api.dueDate) then Some(toTime(api.dueDate.value)) else None,
      createdAt := toTime(api.createdAt),
      updatedAt := toTime(api.modifiedAt),
      aiAnalysis := api.aiAnalysis)
  }

  /** `rows.map(transformTaskFromAPI)`. */
  function TasksFromApi(rows: seq<TaskRow>, toTime: string -> int): (r: seq<Task>)
    ensures |r| == |rows| && forall k :: 0 <= k < |rows| ==> r[k] == TaskFromApi(rows[k], toTime)
  {
    seq(|rows|, k requires 0 <= k < |rows| => TaskFromApi(rows[k], toTime))
  }

  // ---------------------------------------------------------------------
  // Derived views
  // ---------------------------------------------------------------------

  function WithStatus(tasks: seq<Task>, status: Status): (r: seq<Task>)
    ensures forall t :: t in r <==> t in tasks && t.status == status
  {
    Filter(tasks, (t: Task) => t.status == status)
  }

  function WithPriority(tasks: seq<Task>, priority: Priority): (r: seq<Task>)
    ensures forall t :: t in r <==> t in tasks && t.priority == priority
  {
    Filter(tasks, (t: Task) => t.priority == priority)
  }

  datatype StatusGroups = StatusGroups(todo: seq<Task>, inProgress: seq<Task>, completed: seq<Task>)

  datatype PriorityGroups = PriorityGroups(high: seq<Task>, medium: seq<Task>, low: seq<Task>)

  /** `tasksByStatus`: one group per status, each holding exactly the tasks with that status. */
  function TasksByStatus(tasks: seq<Task>): (g: StatusGroups)
    ensures forall t :: t in g.todo <==> t in tasks && t.status == Todo
    ensures forall t :: t in g.inProgress <==> t in tasks && t.status == InProgress
    ensures forall t :: t in g.completed <==> t in tasks && t.status == Completed
  {
    StatusGroups(WithStatus(tasks, Todo), WithStatus(tasks, InProgress), WithStatus(tasks, Completed))
  }

  /** `tasksByPriority`: one group per priority, each holding exactly the tasks with that priority. */
  function TasksByPriority(tasks: seq<Task>): (g: PriorityGroups)
    ensures forall t :: t in g.high <==> t in tasks && t.priority == High
    ensures forall t :: t in g.medium <==> t in tasks && t.priority == Medium
    ensures forall t :: t in g.low <==> t in tasks && t.priority == Low
  {
    PriorityGroups(WithPriority(tasks, High), WithPriority(tasks, Medium), WithPriority(tasks, Low))
  }

  /** The three status groups split the list: every task lands in exactly one, as often as it occurs. */
  lemma TasksByStatusPartition(tasks: seq<Task>)
    ensures var g := TasksByStatus(tasks);
      && multiset(g.todo) + multiset(g.inProgress) + multiset(g.completed) == multiset(tasks)
      && |g.todo| + |g.inProgress| + |g.completed| == |tasks|
  {
    var g := TasksByStatus(tasks);
    FilterMultiset(tasks, (t: Task) => t.status == Todo);
    FilterMultiset(tasks, (t: Task) => t.status == InProgress);
    FilterMultiset(tasks, (t: Task) => t.status == Completed);
    var whole := multiset(g.todo) + multiset(g.inProgress) + multiset(g.completed);
    forall t: Task ensures whole[t] == multiset(tasks)[t] {
    }
    assert whole == multiset(tasks);
    assert |whole| == |tasks|;
  }

  /** The three priority groups split the list in the same way. */
  lemma TasksByPriorityPartition(tasks: seq<Task>)
    ensures var g := TasksByPriority(tasks);
      && multiset(g.high) + multiset(g.medium) + multiset(g.low) == multiset(tasks)
      && |g.high| + |g.medium| + |g.low| == |tasks|
  {
    var g := TasksByPriority(tasks);
    FilterMultiset(tasks, (t: Task) => t.priority == High);
    FilterMultiset(tasks, (t: Task) => t.priority == Medium);
    FilterMultiset(tasks, (t: Task) => t.priority == Low);
    var whole := multiset(g.high) + multiset(g.medium) + multiset(g.low);
    forall t: Task ensures whole[t] == multiset(tasks)[t] {
    }
    assert whole == multiset(tasks);
    assert |whole| == |tasks|;
  }

  /** Has a due date before `now` and is not completed. */
  predicate IsOverdue(t: Task, now: int)
  {
    t.dueDate.Some? && t.dueDate.value < now && t.status != Completed
  }

  /** `overdueTasks`, with `now` the current timestamp. */
  function OverdueTasks(tasks: seq<Task>, now: int): (r: seq<Task>)
    ensures forall t :: t in r <==> t in tasks && IsOverdue(t, now)
  {
    Filter(tasks, (t: Task) => IsOverdue(t, now))
  }

  /** A view of a concatenation is the concatenation of the views: the list order is kept. */
  lemma OverdueTasksKeepOrder(a: seq<Task>, b: seq<Task>, now: int)
    ensures OverdueTasks(a + b, now) == OverdueTasks(a, now) + OverdueTasks(b, now)
  {
    FilterConcat(a, b, (t: Task) => IsOverdue(t, now));
  }

  /** The status groups keep the list order: a group of a concatenation is the concatenation of the groups. */
  lemma WithStatusKeepsOrder(a: seq<Task>, b: seq<Task>, status: Status)
    ensures WithStatus(a + b, status) == WithStatus(a, status) + WithStatus(b, status)
  {
    FilterConcat(a, b, (t: Task) => t.status == status);
  }

  /** The priority groups keep the list order in the same way. */
  lemma WithPriorityKeepsOrder(a: seq<Task>, b: seq<Task>, priority: Priority)
    ensures WithPriority(a + b, priority) == WithPriority(a, priority) + WithPriority(b, priority)
  {
    FilterConcat(a, b, (t: Task) => t.priority == priority);
  }

  // ---------------------------------------------------------------------
  // The partial-update payload
  // ---------------------------------------------------------------------

  /**
   * The fields of `updates: Partial<Task>` that `updateTask` reads. `None` is
   * `undefined`; for `dueDate`, `Some(None)` is an explicit `null`.
   */
  datatype TaskUpdates = TaskUpdates(
    title: Option<string>,
    description: Option<string>,
    priority: Option<Priority>,
    status: Option<Status>,
    dueDate: Option<Option<int>>)

  /** A value of the update payload; `Timestamp` is sent as its ISO string. */
  datatype PayloadValue = Text(text: string) | Timestamp(time: int) | Null

  type Payload = map<string, PayloadValue>

  /** The `updateData` object: one key per field of `updates` that is not undefined. */
  function UpdatePayload(updates: TaskUpdates): (m: Payload)
    ensures m.Keys <= {"title", "description", "priority", "status", "dueDate"}
    ensures "title" in m <==> updates.title.Some?
    ensures "description" in m <==> updates.description.Some?
    ensures "priority" in m <==> updates.priority.Some?
    ensures "status" in m <==> updates.status.Some?
    ensures "dueDate" in m <==> updates.dueDate.Some?
    ensures "dueDate" in m ==> (m["dueDate"] == Null <==> updates.dueDate.value.None?)
  {
    var m0: Payload := map[];
    var m1 := if updates.title.Some? then m0["title" := Text(updates.title.value)] else m0;
    var m2 := if updates.description.Some? then m1["description" := Text(updates.description.value)] else m1;
    var m3 := if updates.priority.Some? then m2["priority" := Text(PriorityLabel(updates.priority.value))] else m2;
    var m4 := if updates.status.Some? then m3["status" := Text(StatusLabel(updates.status.value))] else m3;
    if updates.dueDate.Some? then
      m4["dueDate" := if updates.dueDate.value.Some? then Timestamp(updates.dueDate.value.value) else Null]
    else m4
  }

  /** Reads the updates back out of a payload: the inverse of `UpdatePayload`. */
  function UpdatesFromPayload(m: Payload): TaskUpdates
  {
    TaskUpdates(
      title := if "title" in m && m["title"].Text? then Some(m["title"].text) else None,
      description := if "description" in m && m["description"].Text? then Some(m["description"].text) else None,
      priority := if "priority" in m && m["priority"].Text? then PriorityFromLabel(m["priority"].text) else None,
      status := if "status" in m && m["status"].Text? then StatusFromLabel(m["status"].text) else None,
      dueDate :=
        if "dueDate" !in m then None
        else match m["dueDate"]
          case Null => Some(None)
          case Timestamp(time) => Some(Some(time))
          case Text(_) => None)
  }

  /** The payload loses nothing: it reads back as the updates it was built from. */
  lemma UpdatePayloadRoundTrip(updates: TaskUpdates)
    ensures UpdatesFromPayload(UpdatePayload(updates)) == updates
  {
    if updates.priority.Some? {
      PriorityLabelRoundTrip(updates.priority.value);
    }
    if updates.status.Some? {
      StatusLabelRoundTrip(updates.status.value);
    }
  }

  /** The updates the `markAs*` helpers pass: only `status` is set. */
  function StatusUpdate(status: Status): TaskUpdates
  {
    TaskUpdates(None, None, None, Some(status), None)
  }

  /** The payload of a status-only update carries the status and nothing else. */
  lemma StatusUpdatePayload(status: Status)
    ensures UpdatePayload(StatusUpdate(status)) == map["status" := Text(StatusLabel(status))]
  {
  }

  // ---------------------------------------------------------------------
  // Locating and replacing a task by id
  // ---------------------------------------------------------------------

  /** `tasks.findIndex((t) => t.id === id)`. */
  function FindIndexById(tasks: seq<Task>, id: int): (i: int)
    ensures -1 <= i < |tasks|
    ensures i == -1 <==> forall k :: 0 <= k < |tasks| ==> tasks[k].id != id
    ensures 0 <= i ==> tasks[i].id == id && forall k :: 0 <= k < i ==> tasks[k].id != id
  {
    if tasks == [] then -1
    else if tasks[0].id == id then 0
    else
      var j := FindIndexById(tasks[1..], id);
      if j == -1 then -1 else j + 1
  }

  /** The list with its first task of id `id` replaced by `t` (reference definition). */
  function ReplaceFirst(tasks: seq<Task>, id: int, t: Task): seq<Task>
  {
    if tasks == [] then []
    else if tasks[0].id == id then [t] + tasks[1..]
    else [tasks[0]] + ReplaceFirst(tasks[1..], id, t)
  }

  /**
   * Writing at the index `findIndex` returns is replacing the first match:
   * nothing else changes, and without a match nothing changes at all.
   */
  lemma {:induction false} ReplaceFirstAtIndex(tasks: seq<Task>, id: int, t: Task)
    ensures var i := FindIndexById(tasks, id);
      ReplaceFirst(tasks, id, t) == if i == -1 then tasks else tasks[i := t]
  {
    if tasks != [] && tasks[0].id != id {
      ReplaceFirstAtIndex(tasks[1..], id, t);
      var i := FindIndexById(tasks[1..], id);
      if i != -1 {
        assert [tasks[0]] + tasks[1..][i := t] == tasks[i + 1 := t];
      } else {
        assert [tasks[0]] + tasks[1..] == tasks;
      }
    }
  }

  /** `tasks.filter((t) => t.id !== id)`. */
  function RemoveById(tasks: seq<Task>, id: int): (r: seq<Task>)
    ensures forall t :: t in r <==> t in tasks && t.id != id
  {
    Filter(tasks, (t: Task) => t.id != id)
  }

  /** Removing an id keeps the order of the tasks that remain. */
  lemma RemoveByIdKeepsOrder(a: seq<Task>, b: seq<Task>, id: int)
    ensures RemoveById(a + b, id) == RemoveById(a, id) + RemoveById(b, id)
  {
    FilterConcat(a, b, (t: Task) => t.id != id);
  }

  /** Removing an id that no task has leaves the list as it was. */
  lemma RemoveAbsentId(tasks: seq<Task>, id: int)
    requires forall k :: 0 <= k < |tasks| ==> tasks[k].id != id
    ensures RemoveById(tasks, id) == tasks
  {
    FilterKeepsAll(tasks, (t: Task) => t.id != id);
  }

  // ---------------------------------------------------------------------
  // API outcomes
  // ---------------------------------------------------------------------

  /** What a `useApi` request leaves in its `data` and `error` refs. */
  datatype ApiOutcome<T> = ApiOutcome(data: Option<T>, error: Option<string>)

  /** `if (api.error.value)`: an empty message does not count as an error. */
  predicate Failed<T>(o: ApiOutcome<T>)
  {
    IsTruthyText(o.error)
  }

  /** The message `useApi` records for a non-ok response. */
  function HttpErrorText(status: nat, statusText: string): (r: string)
    ensures |r| >= 5 && r[..5] == "HTTP "
    ensures LeadingDigits(r[5..]) == DecimalString(status)
    ensures |r| >= |statusText| + 2 && r[|r| - |statusText| - 2..] == ": " + statusText
    ensures |r| == 5 + |DecimalString(status)| + 2 + |statusText|
    ensures IsSubstring(DecimalString(status), r)
  {
    PrefixDigitsTail("HTTP ", DecimalString(status), ": " + statusText);
    "HTTP " + DecimalString(status) + (": " + statusText)
  }

  /** A delete succeeds unless it failed with a message that does not mention 404. */
  function DeleteSucceeded<T>(o: ApiOutcome<T>): (r: bool)
    ensures r <==> o.error.None? || o.error.value == "" || IsSubstring("404", o.error.value)
  {
    !(Failed(o) && !Includes(o.error.value, "404"))
  }

  /** Deleting a task the server no longer has (a 404 reply) counts as success. */
  lemma NotFoundDeleteSucceeds<T>(data: Option<T>, statusText: string)
    ensures DeleteSucceeded(ApiOutcome(data, Some(HttpErrorText(404, statusText))))
  {
    assert DecimalString(404) == "404" by {
      assert DecimalString(4) == ['4'];
      assert DecimalString(40) == ['4', '0'];
    }
  }

  /** The state an update leaves, for the payload's outcome `o`. */
  predicate UpdateEffect(before: seq<Task>, after: seq<Task>, error: Option<string>, updated: Option<Task>,
                         id: int, o: ApiOutcome<TaskRow>, toTime: string -> int)
  {
    if Failed(o) then
      after == before && error == o.error && updated.None?
    else if o.data.Some? then
      && error.None?
      && updated == Some(TaskFromApi(o.data.value, toTime))
      && after == ReplaceFirst(before, id, updated.value)
    else
      error.None? && updated.None? && after == before
  }

  // ---------------------------------------------------------------------
  // The composable's state and actions
  // ---------------------------------------------------------------------

  class TaskList {
    var tasks: seq<Task>
    var globalLoading: bool
    var globalError: Option<string>

    constructor ()
      ensures tasks == [] && !globalLoading && globalError.None?
    {
      tasks := [];
      globalLoading := false;
      globalError := None;
    }

    /** How every action starts: loading, with the previous error cleared. */
    method BeginAction()
      modifies this
      ensures globalLoading && globalError.None? && tasks == old(tasks)
    {
      globalLoading := true;
      globalError := None;
    }

    /** `fetchTasks`: replaces the list with the fetched rows, mapped. */
    method FetchTasks(outcome: ApiOutcome<seq<TaskRow>>, toTime: string -> int)
      modifies this
      ensures !globalLoading
      ensures globalError == if Failed(outcome) then outcome.error else None
      ensures tasks == if !Failed(outcome) && outcome.data.Some? then TasksFromApi(outcome.data.value, toTime)
                       else old(tasks)
    {
      BeginAction();
      if Failed(outcome) {
        globalError := outcome.error;
      } else if outcome.data.Some? {
        tasks := TasksFromApi(outcome.data.value, toTime);
      }
      globalLoading := false;
    }

    /** `createTask`: puts the created task at the front of the list. */
    method CreateTask(outcome: ApiOutcome<TaskRow>, toTime: string -> int) returns (created: Option<Task>)
      modifies this
      ensures !globalLoading
      ensures Failed(outcome) ==> created.None? && tasks == old(tasks) && globalError == outcome.error
      ensures !Failed(outcome) ==> globalError.None?
      ensures !Failed(outcome) && outcome.data.Some? ==>
        created == Some(TaskFromApi(outcome.data.value, toTime)) && tasks == [created.value] + old(tasks)
      ensures !Failed(outcome) && outcome.data.None? ==> created.None? && tasks == old(tasks)
    {
      BeginAction();
      if Failed(outcome) {
        globalError := outcome.error;
        created := None;
      } else if outcome.data.Some? {
        var newTask := TaskFromApi(outcome.data.value, toTime);
        tasks := [newTask] + tasks;
        created := Some(newTask);
      } else {
        created := None;
      }
      globalLoading := false;
    }

    /** `viewTask`: maps the fetched row without touching the list. */
    method ViewTask(outcome: ApiOutcome<TaskRow>, toTime: string -> int) returns (viewed: Option<Task>)
      modifies this
      ensures !globalLoading && tasks == old(tasks)
      ensures globalError == if Failed(outcome) then outcome.error else None
      ensures viewed == if !Failed(outcome) && outcome.data.Some? then Some(TaskFromApi(outcome.data.value, toTime))
                        else None
    {
      BeginAction();
      if Failed(outcome) {
        globalError := outcome.error;
        viewed := None;
      } else if outcome.data.Some? {
        viewed := Some(TaskFromApi(outcome.data.value, toTime));
      } else {
        viewed := None;
      }
      globalLoading := false;
    }

    /**
     * `updateTask`: sends the payload built from `updates`; `put` is the
     * endpoint's answer to it. The returned task replaces the first task
     * with the same id, if there is one.
     */
    method UpdateTask(taskId: int, updates: TaskUpdates, put: Payload -> ApiOutcome<TaskRow>, toTime: string -> int)
      returns (updated: Option<Task>)
      modifies this
      ensures !globalLoading
      ensures UpdateEffect(old(tasks), tasks, globalError, updated, taskId, put(UpdatePayload(updates)), toTime)
    {
      BeginAction();
      var outcome := put(UpdatePayload(updates));
      if Failed(outcome) {
        globalError := outcome.error;
        updated := None;
      } else if outcome.data.Some? {
        var updatedTask := TaskFromApi(outcome.data.value, toTime);
        var index := FindIndexById(tasks, taskId);
        ReplaceFirstAtIndex(tasks, taskId, updatedTask);
        if index != -1 {
          tasks := tasks[index := updatedTask];
        }
        updated := Some(updatedTask);
      } else {
        updated := None;
      }
      globalLoading := false;
    }

    /** `deleteTask`: drops every task with the id unless the delete failed for a reason other than 404. */
    method DeleteTask(taskId: int, outcome: ApiOutcome<()>) returns (deleted: bool)
      modifies this
      ensures !globalLoading
      ensures deleted == DeleteSucceeded(outcome)
      ensures tasks == if deleted then RemoveById(old(tasks), taskId) else old(tasks)
      ensures globalError == if deleted then None else outcome.error
    {
      BeginAction();
      if Failed(outcome) && !Includes(outcome.error.value, "404") {
        globalError := outcome.error;
        deleted := false;
      } else {
        tasks := RemoveById(tasks, taskId);
        deleted := true;
      }
      globalLoading := false;
    }

    /** `markAsCompleted`: an update that sets only the status. */
    method MarkAsCompleted(taskId: int, put: Payload -> ApiOutcome<TaskRow>, toTime: string -> int)
      returns (updated: Option<Task>)
      modifies this
      ensures !globalLoading
      ensures UpdateEffect(old(tasks), tasks, globalError, updated, taskId, put(UpdatePayload(StatusUpdate(Completed))), toTime)
    {
      updated := UpdateTask(taskId, StatusUpdate(Completed), put, toTime);
    }

    /** `markAsInProgress`: an update that sets only the status. */
    method MarkAsInProgress(taskId: int, put: Payload -> ApiOutcome<TaskRow>, toTime: string -> int)
      returns (updated: Option<Task>)
      modifies this
      ensures !globalLoading
      ensures UpdateEffect(old(tasks), tasks, globalError, updated, taskId, put(UpdatePayload(StatusUpdate(InProgress))), toTime)
    {
      updated := UpdateTask(taskId, StatusUpdate(InProgress), put, toTime);
    }

    /** `markAsTodo`: an update that sets only the status. */
    method MarkAsTodo(taskId: int, put: Payload -> ApiOutcome<TaskRow>, toTime: string -> int)
      returns (updated: Option<Task>)
      modifies this
      ensures !globalLoading
      ensures UpdateEffect(old(tasks), tasks, globalError, updated, taskId, put(UpdatePayload(StatusUpdate(Todo))), toTime)
    {
      updated := UpdateTask(taskId, StatusUpdate(Todo), put, toTime);
    }
  }
}

=== FILE: wrappers.dfy ===
/** Optional values and error-carrying results shared by every module. */
module Wrappers {

  /** JavaScript's `undefined`/`null` versus a present value. */
  datatype Option<+T> = None | Some(value: T)

  /** A computation that either produced a value or threw an error with a message. */
  datatype Result<+T> = Success(value: T) | Failure(message: string)
}
